=== FILE: README.md ===
# Car GPS tracker supervisor — Dafny model

This project models the control logic of `car.py`, an unattended agent that
drives a SIMCom-style modem on `/dev/ttyUSB2` (AT commands, `AT+CGPS` GPS engine) and
an SSD1306 status display. The agent brings up the LTE link, waits for
internet reachability, runs the modem's GPS engine over AT commands, parses the
position sentence and uploads reports to a Traccar server. It recovers from
failures by retrying inside the inner loop or by restarting the outer loop.

The model is purely functional. Every input comes from the environment and is
supplied as a script:

- the modem's replies (`AtTransport.Reply`: a decoded buffer, a serial error or undecodable bytes);
- the reachability probes (`Supervisor.Probe`);
- the success of the privileged commands, the notification send, the serial open, and per inner cycle the outcome of the GPS call and whether the upload succeeded (`Supervisor.Env`, `Supervisor.CycleInput`; `Supervisor.CycleOn` obtains the outcome from the modem's replies through `GpsSession.GetGpsPosition`);
- Python's `float()`, a parameter `num: string -> Option<real>` where `None` stands for the `ValueError` it raises.

Modules:

- `PyStr` — the Python `str` operations the source relies on: `in`, `find`, `split`, `join`, clamped slicing, `strip()`.
- `AtTransport` — the match step of `send_at`.
- `FixParser` — `parse_gps_data`.
- `GpsSession` — `get_gps_position`: query, conditional start, at most ten polls.
- `Uploader` — the report built by `send_data_to_traccar`.
- `Supervisor` — `main`: the internet wait, the one-shot notification, the edge-triggered display, the failure counter, the inner loop, the outer handler and restarts.

Where the code and the system's design description disagree, the model follows the code:

- The failure counter resets when an upload succeeds, not whenever a fix is obtained. A fix whose upload fails still increments it.
- The internet wait gives up after the twelfth failed probe. A thirteenth probe is never made.
- A serial exception during polling ends the GPS call at once, and the inner loop catches it. Only a reply without the expected token, or one marked not ready, moves on to the next poll.
- A sentence with too few fields yields "no fix". A non-numeric field makes `float()` raise `ValueError`. The inner loop does not catch that, so it restarts the outer loop.
- The parser does not check that latitude lies in [-90, 90] or longitude in [-180, 180].
- When the link comes up, the display's GPS line shows the remembered GPS status, which is "off" before any cycle has run.

## Model

| member | source | states |
|---|---|---|
| PyStr.Split | car.py:131 | `split` gives at least one piece, and two or more exactly when the separator occurs |
| PyStr.JoinSplit | car.py:131 | joining the pieces of a split with the separator gives back the original string |
| PyStr.SplitJoin | car.py:131 | splitting on one character gives back any parts joined with it, provided no part contains it |
| PyStr.SplitCount | car.py:131-132 | splitting on a character gives one more piece than the character's number of occurrences |
| PyStr.Slice | car.py:135-136 | Python slicing clamps both bounds to the length; the result holds exactly the characters from `lo` on |
| PyStr.TakeDrop | car.py:135-136 | `s[:n] + s[n:] == s` for every `n`, even past the end |
| PyStr.Strip | car.py:175 | `strip()` leaves a string, no longer than its input, that is empty or starts and ends with a non-space |
| PyStr.StripRemovesOnlySpace | car.py:175 | `strip()` removes only whitespace, and only from the two ends: the input is some whitespace, the result, then some whitespace |
| PyStr.StripTrimmed | car.py:175 | `strip()` is idempotent and leaves trimmed strings alone |
| PyStr.ContainsTransitive | car.py:155 | substring containment is transitive |
| AtTransport.SendAt | car.py:115-128 | the result is the received buffer exactly when the expected token occurs in it, and `None` otherwise |
| AtTransport.EmptyBufferMatchesOnlyEmpty | car.py:116-125 | when nothing arrived (empty buffer) only an empty token matches |
| FixParser.Fields | car.py:131 | a sentence has one more field than commas, and joining the fields gives the sentence back |
| FixParser.ParseGpsData | car.py:131-133 | the sentence is rejected as too short exactly when it has fewer than 7 commas (8 fields) |
| FixParser.ParseFields | car.py:135-148 | eight fields never give "too short"; they give a fix exactly when all six `float()` conversions succeed, with the timestamp from fields 4 and 5 and the altitude from field 6 |
| FixParser.IsoTimestamp | car.py:147 | the timestamp starts with `20` and ends with `Z`, has 8 to 20 characters, and with full-width fields has exactly 20 with `-`, `-`, `T`, `:`, `:` in their ISO positions |
| FixParser.ParseSentence | car.py:130-148 | for any 8+ comma-free fields: `ValueError` exactly when a conversion fails and never a partial fix; latitude = degrees (2 chars) + minutes/60; longitude = degrees (3 chars) + minutes/60; only `S`/`W` negate; speed = knots × 1.852; altitude and timestamp from fields 6, 4 and 5 |
| FixParser.ExtraFieldsIgnored | car.py:131-147 | fields after the eighth do not affect the result |
| FixParser.SameLeadingFields | car.py:135-147 | the parse depends on the first eight fields only |
| FixParser.HemisphereNegates | car.py:137-140 | an `S` sentence has the negated latitude of the same sentence marked `N`, a `W` one the negated longitude of the `E` one; an `N` latitude or `E` longitude built from non-negative readings is non-negative |
| FixParser.TimestampRoundTrip | car.py:147 | with 6-character date and time fields the timestamp has 20 characters and decodes back to `ddmmyy` and `hhmmss` |
| FixParser.ExampleSentence | car.py:130-148 | the sentence `1234.5678,N,07612.3456,E,010124,120000.00,100.0,10.0` (its eight fields joined by commas) parses to 12.57613, 76.20576, 100.0 m, 18.52 km/h, `2024-01-01T12:00:00Z` |
| GpsSession.Polls | car.py:165-181 | the poll loop issues only info queries, at most as many as polls remain |
| GpsSession.Scan | car.py:165-178 | counts the info queries the loop issues: one per reply, up to and including the first reply that is not skippable, never more than the polls left (the full characterisation is `ScanStopsAtFirstUsable`) |
| GpsSession.ScanStopsAtFirstUsable | car.py:165-181 | the loop reads one reply per query, passes over only mismatched or not-ready replies, stops at the first other reply; if the reply it ends on was passed over too, all remaining polls were used |
| GpsSession.Settle | car.py:175-176 | a usable reply is never a serial fault; it gives "no fix" exactly when the text between the first and the second `: ` (or to the end), stripped, has fewer than 7 commas, and a fix only as the parser's fix of that text |
| GpsSession.Open | car.py:154-161 | polling starts after the query alone or after the query and the start command; a call that ends before polling has sent one of those two command lists and has no fix |
| GpsSession.AlreadyRunningSkipsStart | car.py:154-156 | when the query's reply contains `+CGPS: 1`, `AT+CGPS=1` is never sent and polling starts right after the query |
| GpsSession.StartFailureEndsCall | car.py:157-161 | if the engine is not reported running and the start reply lacks `OK`, the call returns `None` after the query and start commands only, with no info query |
| GpsSession.NotRunningSendsStart | car.py:155-161 | if the engine is not reported running and the start reply holds `OK`, the query and `AT+CGPS=1` are sent and polling starts right after them |
| GpsSession.StartSentIffNotRunning | car.py:154-161 | `AT+CGPS=1` is sent exactly when the query's reply arrived, decoded, and does not contain `+CGPS: 1` |
| GpsSession.GetGpsPosition | car.py:150-181 | a call sends `AT+CGPS?` first, issues at most 10 `AT+CGPSINFO` queries and at most 12 commands in all |
| GpsSession.ResultIsFirstUsable | car.py:165-181 | the outcome is the verdict on the first of the ten poll replies that is neither mismatched nor not-ready, after that many queries; if all ten are skipped, no fix after ten queries |
| GpsSession.UsableReplyHasPayload | car.py:171-176 | a usable reply always has text after `: `, so `split(': ')[1]` cannot fail and the parser decides the outcome |
| Uploader.Round2 | car.py:193 | `round(x, 2)` gives a whole number of hundredths within 0.005 of `x`, and leaves a value that already is one unchanged |
| Uploader.Round2Nearest | car.py:193 | no hundredth is closer to `x` than `round(x, 2)` |
| Uploader.BuildReport | car.py:183-196 | the report carries the device id, the fix's position and altitude, the speed rounded to hundredths (within 0.005, unchanged when already in hundredths), the send-time clock, and the bearing and battery defaults |
| Uploader.ReportIgnoresFixTime | car.py:191 | the report does not depend on the fix's own timestamp |
| Supervisor.WaitForInternet | car.py:240-249 | gives up exactly when all 12 probes fail to connect; otherwise it ends at the first probe that connects or raises, all earlier ones having failed |
| Supervisor.SuccessOnTwelfthProbe | car.py:242-253 | 11 failed probes followed by a success on the 12th still bring the link up |
| Supervisor.Cycle | car.py:282-320 | a serial fault changes nothing; any other escaping exception leaves the inner loop; `gps` is true exactly when a fix was obtained; the counter becomes 0 on upload success and otherwise (old+1) mod 20; the display is updated exactly when (network, gps) differs from the remembered pair, and the pair is then remembered |
| Supervisor.Observe | car.py:298-312 | a cycle that reached the display records the GPS status, keeps the network status, flag, notices and port, remembers the shown pair, updates the display exactly on an edge, and wraps a counter of 20 to 0 |
| Supervisor.InnerLoop | car.py:281-320 | the inner loop never ends the process; it hands over to the outer handler exactly when some cycle's GPS call raised an exception other than a serial one (only serial and request exceptions are caught, line 317), and otherwise keeps running; it keeps the network status, port and flag |
| Supervisor.DisplayTracksStatus | car.py:304-308 | from a state whose display shows the remembered pair (always so with the corrected handler), each cycle that got a fix or none leaves the actual (network, gps) pair on the display |
| Supervisor.InnerLoopHealthy | car.py:280-320 | the inner loop keeps the counter below 20, keeps the display coherent with the remembered pair and never notifies |
| Supervisor.NoFixNeverEscalates | car.py:298-312 | cycles without a fix only advance the counter, mod 20, and never leave the inner loop |
| Supervisor.TwentyNoFixCycles | car.py:310-312 | 20 consecutive no-fix cycles reset the counter to 0 without escalating |
| Supervisor.SilentModemGivesNoFix | car.py:153-161 | with a modem that never answers, the GPS call sends the query and the start command and reports no fix |
| Supervisor.SilentModemNeverEscalates | car.py:298-312 | any number of cycles against a silent modem only advance the counter mod 20 and never leave the inner loop |
| Supervisor.LinkUpHealthy | car.py:255-263 | bringing the link up sets the one-shot flag, delivers a notification only if none was delivered before, and keeps the display coherent |
| Supervisor.LinkUp | car.py:255-264 | link-up sets the one-shot flag and counts a notification only when it was clear; the display changes exactly when the network status differs from the remembered one, and then shows the network status with the remembered GPS status |
| Supervisor.Attempt | car.py:233-280 | (whether it raises or keeps looping after the port opened is `OuterDecision`) the attempt ends the process exactly when a privileged command fails, unchanged; a failed wait raises with only the network status changed; looping means the link is up, notified and the port open; the port is touched only after the link came up and the notification went through; after a successful wait the network status is up and the attempt does not end the process, a raising first notification raises with only the network status changed, and otherwise the flag is set, a notification counted only if none was before, and the port is open when the serial open succeeds, or left as `None` with the attempt raising when it fails |
| Supervisor.AttemptHealthy | car.py:233-280 | from a healthy state (always so with the corrected handler) an outer iteration keeps the state healthy and sends no notification once the flag is set |
| Supervisor.Recover | car.py:322-330 | as intended: the handler leaves no port open, shows both statuses off and remembers that as the displayed pair |
| Supervisor.RecoverAsWritten | car.py:322-330 | as written: the handler raises exactly when `ser` was never assigned; otherwise it leaves no port open and shows both off, but keeps the remembered pair |
| Supervisor.IterateAsWritten | car.py:233-330 | as written: an outer iteration crashes exactly when its attempt raised while `ser` was still unassigned (how it ends otherwise is `OuterDecision`) |
| Supervisor.AttemptNotifiesOnce | car.py:255-258 | an outer iteration, whatever its handler, delivers a notification only when none was delivered before |
| Supervisor.RunAsWrittenNotifiesOnce | car.py:228-330 | as written: until the process ends, any sequence of outer iterations delivers at most one notification |
| Supervisor.NotifiedAtMostOnceAsWritten | car.py:229-259 | as written: from process start at most one startup notification is delivered, unless the process has crashed |
| Supervisor.Iterate | car.py:233-330 | with the corrected handler an outer iteration never crashes the process (how it ends is `OuterDecision`) |
| Supervisor.OuterDecision | car.py:233-330 | with either handler, an outer iteration stops the process exactly when a privileged command fails (`sys.exit`) and keeps running exactly when the link came up, the due notification went out, the port opened and no cycle let a non-serial exception escape; otherwise the corrected loop restarts, and the loop as written restarts or crashes |
| Supervisor.UncaughtCycleRestarts | car.py:281-330 | once the port is open, a cycle whose GPS call raises `ValueError` or a decode error restarts the outer loop with the port closed, with either handler |
| Supervisor.Run | car.py:233-330 | with the corrected handler: a run of outer iterations never crashes the process |
| Supervisor.RunAsWritten | car.py:233-330 | as written: a run of outer iterations can crash only if it started with `ser` never assigned |
| Supervisor.RunHealthy | car.py:228-330 | with the corrected handler: over any sequence of outer iterations the process never crashes, the state stays healthy and at most one notification is delivered |
| Supervisor.NotifiedAtMostOnce | car.py:229-259 | with the corrected handler: from process start, the process never crashes and at most one startup notification is ever delivered |
| Supervisor.FirstLinkFailureCrashesAsWritten | car.py:322-326 | as written: 12 failed probes in the first iteration make the handler read the unassigned `ser`, and the process dies |
| Supervisor.LinkFailureRestarts | car.py:240-249 | as intended: 12 failed probes from any state lead to a restart with the port closed and the display showing both off |
| Supervisor.StaleDisplayAsWritten | car.py:322-330 | as written: after a restart from an all-on display, the next outer iteration brings the link up and its one cycle obtains a fix, so it keeps running with both statuses on, yet the display keeps showing both off |
| Supervisor.RecoverKeepsDisplayCoherent | car.py:322-330 | as intended: the handler keeps the display coherent with the remembered pair, so the next change is shown |
| Supervisor.FreshDisplayAfterRestart | car.py:305-308 | as intended: in the scenario of the stale display, the next outer iteration keeps running with both statuses on and the display shows both on |

## Findings

| source | as written | input that shows it | evidently intended | confidence | as-written member | corrected member |
|---|---|---|---|---|---|---|
| car.py:322-326 | the handler tests `if ser:`, but `ser` is first assigned at line 270 | first outer iteration whose 12 probes all fail (likewise a probe or notification that raises) | close any open port, show all off, restart after 60 s | high; not executed | Supervisor.FirstLinkFailureCrashesAsWritten | Supervisor.LinkFailureRestarts |
| car.py:329 | the handler shows (False, False) without updating `prev_network_status` / `prev_gps_status` | display showed both on; an uncaught exception in a cycle restarts; in the next iteration the link is up and the first cycle obtains a fix | the display shows the actual statuses after the restart | high; not executed | Supervisor.StaleDisplayAsWritten | Supervisor.FreshDisplayAfterRestart |

The as-written handler is `Supervisor.RecoverAsWritten`, used by `Supervisor.IterateAsWritten`.
The rest of the model uses the corrected `Supervisor.Recover`, through `Supervisor.Iterate` and `Supervisor.Run`.

## Left out

- The OLED rendering, fonts and image buffer: each display update is recorded as a `Pair` in the state.
- Telegram messaging and IST time formatting: only whether the send raised is an input, plus the one-shot flag and a delivery count.
- The subprocess calls: stopping ModemManager and starting LTE are pass/fail inputs. Either failure ends the process (`sys.exit` raises `SystemExit`, which `except Exception` does not catch).
- The tailscaled restart: its outcome is logged and ignored by the source, so it has no input.
- Serial I/O, `in_waiting` timing and `time.sleep`: replaced by scripted replies, one per command. A script read past its end answers with an empty buffer.
- Uploader.Round2: rounds the exact real value; Python rounds the binary double, so for 2.675 (stored just below) Python gives 2.67 where `Round2` gives 2.68. Float representation is not modelled.
- The clock reading `int(time.time())` is a parameter of `Uploader.BuildReport`.
- IEEE float behaviour of `float()`, division by 60 and multiplication by 1.852: `real` arithmetic with an abstract reader is used instead.
- `print_results`, `print` and logging: console and file output only.
- Exceptions raised by the display driver or by `ser.close()`: not modelled.
- The infinite loops: they are cut where their scripts end (`Running` / `Looping`).

=== FILE: at_transport.dfy ===
/**
 The AT-command transport of the modem (`send_at` in car.py). Writing the
 command, waiting for the timeout and reading what is buffered are the
 environment's part: the model receives the outcome of that exchange as a
 `Reply` and decides, as the source does, whether it matched.
 */
module AtTransport {
  import opened Wrappers
  import opened PyStr

  /** What one exchange on the serial link produced.
      `Buffer(text)`: the decoded bytes that had arrived (empty when nothing had);
      `SerialError`: the port raised a serial exception while writing or reading;
      `Garbled`: the bytes did not decode as text, so `.decode()` raised. */
  datatype Reply = Buffer(text: string) | SerialError | Garbled

  /** A scripted reply sequence read past its end answers with an empty
      buffer: nothing arrived before the timeout. */
  function ReplyAt(script: seq<Reply>, i: nat): Reply {
    if i < |script| then script[i] else Buffer([])
  }

  /** The AT commands the GPS session issues (`AT+CGPS?`, `AT+CGPS=1`,
      `AT+CGPSINFO`), with the token each expects. What is written to the
      port is not modelled. */
  datatype Command = CgpsQuery | CgpsStart | CgpsInfo {
    function Expect(): string {
      match this
      case CgpsQuery => "+CGPS: "
      case CgpsStart => "OK"
      case CgpsInfo => "+CGPSINFO: "
    }
  }

  /** The match step of `send_at`: the received buffer itself when the
      expected token occurs in it, `None` otherwise. */
  function SendAt(buffer: string, back: string): (r: Option<string>)
    ensures r.Some? <==> exists i :: OccursAt(buffer, back, i)
    ensures r.Some? ==> r.value == buffer
  {
    ContainsOccurs(buffer, back);
    if Contains(buffer, back) then Some(buffer) else None
  }

  /** When nothing arrived the buffer is empty, and only an empty token matches it. */
  lemma EmptyBufferMatchesOnlyEmpty(back: string)
    ensures SendAt([], back).Some? <==> back == []
  {
    EmptyContainment([], back);
  }
}

=== FILE: fix_parser.dfy ===
/**
 The position-sentence parser (`parse_gps_data` in car.py). The sentence is
 the text the modem reports after `+CGPSINFO: `: latitude ddmm.mmmm, N/S,
 longitude dddmm.mmmm, E/W, date ddmmyy, time hhmmss.s, altitude, speed in knots.
 Python's `float()` is the parameter `num`: `num(x) == None` stands for the
 `ValueError` that `float(x)` raises; IEEE rounding is not modelled.
 */
module FixParser {
  import opened Wrappers
  import opened PyStr

  type NumberReader = string -> Option<real>

  /** A decoded position, the dictionary the source returns. */
  datatype Fix = Fix(lat: real, lon: real, alt: real, speed: real, timestamp: string)

  /** `TooFewFields`: the source returns `None`. `BadNumber`: a `float()`
      conversion raised `ValueError`, which the source does not catch. */
  datatype ParseResult = TooFewFields | BadNumber | Parsed(fix: Fix)

  const KmhPerKnot: real := 1.852

  /** `ddmm.mmmm` (or `dddmm.mmmm` with three degree digits) to decimal degrees. */
  function Degrees(field: string, degreeDigits: nat, num: NumberReader): Option<real>
  {
    var d := num(Take(field, degreeDigits));
    var m := num(Drop(field, degreeDigits));
    if d.Some? && m.Some? then Some(d.value + m.value / 60.0) else None
  }

  /** The sign rule: exactly the hemisphere field `neg` flips the sign. */
  function Signed(magnitude: real, hemisphere: string, neg: string): real {
    if hemisphere == neg then -magnitude else magnitude
  }

  /** `20YY-MM-DDTHH:MM:SSZ`, assembled from Python slices of `ddmmyy` and `hhmmss`. */
  function IsoTimestamp(d: string, t: string): (r: string)
    ensures 8 <= |r| <= 20
    ensures r[..2] == "20" && r[|r| - 1] == 'Z'
    ensures |d| >= 6 && |t| >= 6 ==> |r| == 20 && r[4] == '-' && r[7] == '-' && r[10] == 'T' && r[13] == ':' && r[16] == ':'
  {
    "20" + Slice(d, 4, 6) + "-" + Slice(d, 2, 4) + "-" + Slice(d, 0, 2)
    + "T" + Slice(t, 0, 2) + ":" + Slice(t, 2, 4) + ":" + Slice(t, 4, 6) + "Z"
  }

  /** The comma-separated fields of a sentence. */
  function Fields(sentence: string): (r: seq<string>)
    ensures |r| == Count(sentence, ',') + 1
    ensures Join(r, ",") == sentence
  {
    SplitCount(sentence, ',');
    JoinSplit(sentence, ",");
    Split(sentence, ",")
  }

  /** The sentence is rejected as too short exactly when it has fewer than
      seven commas, i.e. fewer than eight fields. */
  function ParseGpsData(sentence: string, num: NumberReader): (r: ParseResult)
    ensures r.TooFewFields? <==> Count(sentence, ',') < 7
  {
    var parts := Fields(sentence);
    if |parts| < 8 then TooFewFields else ParseFields(parts[..8], num)
  }

  /** The conversions of the first eight fields; a failed `float()` is the
      `ValueError` the caller sees. */
  function ParseFields(parts: seq<string>, num: NumberReader): (r: ParseResult)
    requires |parts| == 8
    ensures !r.TooFewFields?
    ensures r.Parsed? <==> Readable(parts, num)
    ensures r.Parsed? ==> r.fix.timestamp == IsoTimestamp(parts[4], parts[5]) && r.fix.alt == num(parts[6]).value
  {
    var lat := Degrees(parts[0], 2, num);
    var lon := Degrees(parts[2], 3, num);
    var alt := num(parts[6]);
    var knots := num(parts[7]);
    if lat.None? || lon.None? || alt.None? || knots.None? then BadNumber
    else
      Parsed(Fix(
        Signed(lat.value, parts[1], "S"),
        Signed(lon.value, parts[3], "W"),
        alt.value,
        knots.value * KmhPerKnot,
        IsoTimestamp(parts[4], parts[5])))
  }

  /** All six numeric conversions of an eight-field sentence succeed. */
  predicate Readable(f: seq<string>, num: NumberReader)
    requires |f| >= 8
  {
    && num(Take(f[0], 2)).Some? && num(Drop(f[0], 2)).Some?
    && num(Take(f[2], 3)).Some? && num(Drop(f[2], 3)).Some?
    && num(f[6]).Some? && num(f[7]).Some?
  }

  /** What the parser makes of a sentence built from comma-free fields: a
      `ValueError` exactly when a conversion fails and otherwise never a partial
      fix; latitude is the first two characters of field 0 as degrees plus the
      rest as minutes, longitude the same with three degree characters of
      field 2, `S` and `W` (and nothing else) negate; the speed is the knots of
      field 7 times 1.852; the timestamp comes from fields 4 and 5. */
  lemma {:induction false} ParseSentence(f: seq<string>, num: NumberReader)
    requires |f| >= 8 && Clean(f, ',')
    ensures var r := ParseGpsData(Join(f, ","), num);
      && (r.BadNumber? <==> !Readable(f, num))
      && (r.Parsed? <==> Readable(f, num))
      && (r.Parsed? ==>
        && Take(f[0], 2) + Drop(f[0], 2) == f[0]
        && Take(f[2], 3) + Drop(f[2], 3) == f[2]
        && r.fix.lat == (if f[1] == "S" then -1.0 else 1.0)
             * (num(Take(f[0], 2)).value + num(Drop(f[0], 2)).value / 60.0)
        && r.fix.lon == (if f[3] == "W" then -1.0 else 1.0)
             * (num(Take(f[2], 3)).value + num(Drop(f[2], 3)).value / 60.0)
        && r.fix.alt == num(f[6]).value
        && r.fix.speed == 1.852 * num(f[7]).value
        && r.fix.timestamp == IsoTimestamp(f[4], f[5]))
  {
    SplitJoin(f, ',');
    assert Fields(Join(f, ",")) == f;
    TakeDrop(f[0], 2);
    TakeDrop(f[2], 3);
  }

  /** Fields after the eighth are ignored. */
  lemma {:induction false} ExtraFieldsIgnored(f: seq<string>, extra: seq<string>, num: NumberReader)
    requires |f| == 8 && Clean(f + extra, ',')
    ensures ParseGpsData(Join(f + extra, ","), num) == ParseGpsData(Join(f, ","), num)
  {
    assert Clean(f, ',') by {
      forall k | 0 <= k < |f| ensures ',' !in f[k] { assert f[k] == (f + extra)[k]; }
    }
    SplitJoin(f + extra, ',');
    SplitJoin(f, ',');
    assert Fields(Join(f + extra, ",")) == f + extra;
    assert Fields(Join(f, ",")) == f;
    SameLeadingFields(Join(f + extra, ","), Join(f, ","), num);
  }

  /** The parse depends on the first eight fields only. */
  lemma SameLeadingFields(s1: string, s2: string, num: NumberReader)
    requires |Fields(s1)| >= 8 && |Fields(s2)| >= 8
    requires forall k :: 0 <= k < 8 ==> Fields(s1)[k] == Fields(s2)[k]
    ensures ParseGpsData(s1, num) == ParseGpsData(s2, num)
  {
    var a := Fields(s1)[..8];
    var b := Fields(s2)[..8];
    assert forall k :: 0 <= k < 8 ==> a[k] == b[k];
    assert a == b;
  }

  /** A southern sentence yields the negated latitude of the same sentence
      marked northern, a western one the negated longitude of the eastern one. */
  lemma {:induction false} HemisphereNegates(f: seq<string>, num: NumberReader)
    requires |f| >= 8 && Clean(f, ',') && Readable(f, num)
    ensures var south := ParseGpsData(Join(f[1 := "S"], ","), num);
      var north := ParseGpsData(Join(f[1 := "N"], ","), num);
      && south.Parsed? && north.Parsed? && south.fix.lat == -north.fix.lat
      && (num(Take(f[0], 2)).value >= 0.0 && num(Drop(f[0], 2)).value >= 0.0 ==> north.fix.lat >= 0.0)
    ensures var west := ParseGpsData(Join(f[3 := "W"], ","), num);
      var east := ParseGpsData(Join(f[3 := "E"], ","), num);
      && west.Parsed? && east.Parsed? && west.fix.lon == -east.fix.lon
      && (num(Take(f[2], 3)).value >= 0.0 && num(Drop(f[2], 3)).value >= 0.0 ==> east.fix.lon >= 0.0)
  {
    assert Clean(f[1 := "S"], ',') && Clean(f[1 := "N"], ',');
    assert Clean(f[3 := "W"], ',') && Clean(f[3 := "E"], ',');
    ParseSentence(f[1 := "S"], num);
    ParseSentence(f[1 := "N"], num);
    ParseSentence(f[3 := "W"], num);
    ParseSentence(f[3 := "E"], num);
  }

  /** The date and time fields an ISO timestamp was built from. */
  function TimestampFields(ts: string): (r: (string, string))
    requires |ts| == 20
  {
    (ts[8..10] + ts[5..7] + ts[2..4], ts[11..13] + ts[14..16] + ts[17..19])
  }

  /** For full-width date and time fields the timestamp is 20 characters long
      and decodes back to `ddmmyy` and the leading `hhmmss` (fractional
      seconds dropped). */
  lemma TimestampRoundTrip(d: string, t: string)
    ensures |d| >= 6 && |t| >= 6 ==>
      |IsoTimestamp(d, t)| == 20 && TimestampFields(IsoTimestamp(d, t)) == (d[..6], t[..6])
  {
    if |d| >= 6 && |t| >= 6 {
      FullWidthTimestamp(d, t);
      var ts := IsoTimestamp(d, t);
      assert ts[8..10] == d[0..2] && ts[5..7] == d[2..4] && ts[2..4] == d[4..6];
      assert ts[11..13] == t[0..2] && ts[14..16] == t[2..4] && ts[17..19] == t[4..6];
      assert d[..6] == d[0..2] + d[2..4] + d[4..6];
      assert t[..6] == t[0..2] + t[2..4] + t[4..6];
    }
  }

  /** With full-width fields every slice of the timestamp is a true two-character slice. */
  lemma FullWidthTimestamp(d: string, t: string)
    requires |d| >= 6 && |t| >= 6
    ensures IsoTimestamp(d, t) == "20" + d[4..6] + "-" + d[2..4] + "-" + d[0..2]
      + "T" + t[0..2] + ":" + t[2..4] + ":" + t[4..6] + "Z"
  {
    assert Slice(d, 4, 6) == d[4..6] && Slice(d, 2, 4) == d[2..4] && Slice(d, 0, 2) == d[0..2];
    assert Slice(t, 4, 6) == t[4..6] && Slice(t, 2, 4) == t[2..4] && Slice(t, 0, 2) == t[0..2];
  }

  /** The readings `float()` gives for the fields of the example sentence below. */
  function ExampleReader(x: string): Option<real> {
    if x == "12" then Some(12.0)
    else if x == "34.5678" then Some(34.5678)
    else if x == "076" then Some(76.0)
    else if x == "12.3456" then Some(12.3456)
    else if x == "100.0" then Some(100.0)
    else if x == "10.0" then Some(10.0)
    else None
  }

  /** The fields of the example sentence below. */
  predicate IsExampleFields(f: seq<string>) {
    && |f| == 8 && f[0] == "1234.5678" && f[1] == "N" && f[2] == "07612.3456" && f[3] == "E"
    && f[4] == "010124" && f[5] == "120000.00" && f[6] == "100.0" && f[7] == "10.0"
  }

  lemma ExampleClean(f: seq<string>)
    requires IsExampleFields(f)
    ensures Clean(f, ',')
  {
    assert ',' !in f[0] && ',' !in f[2] && ',' !in f[4] && ',' !in f[5];
  }

  lemma ExampleDegrees(f: seq<string>)
    requires IsExampleFields(f)
    ensures Take(f[0], 2) == "12" && Drop(f[0], 2) == "34.5678"
    ensures Take(f[2], 3) == "076" && Drop(f[2], 3) == "12.3456"
  {
  }

  lemma ExampleTimestamp(f: seq<string>)
    requires IsExampleFields(f)
    ensures IsoTimestamp(f[4], f[5]) == "2024-01-01T12:00:00Z"
  {
  }

  lemma ExampleParse(f: seq<string>)
    requires IsExampleFields(f)
    ensures ParseGpsData(Join(f, ","), ExampleReader)
      == Parsed(Fix(12.57613, 76.20576, 100.0, 18.52, "2024-01-01T12:00:00Z"))
  {
    ExampleClean(f);
    ExampleDegrees(f);
    ExampleTimestamp(f);
    assert Readable(f, ExampleReader);
    ParseSentence(f, ExampleReader);
    assert 12.0 + 34.5678 / 60.0 == 12.57613;
    assert 76.0 + 12.3456 / 60.0 == 76.20576;
  }

  /** A northern-eastern sentence, `1234.5678,N,07612.3456,E,010124,120000.00,100.0,10.0`:
      12 deg 34.5678 min N, 76 deg 12.3456 min E, 1 January 2024 at 12:00:00 UTC,
      100 m, 10 knots (18.52 km/h). */
  lemma ExampleSentence()
    ensures ParseGpsData(Join(["1234.5678", "N", "07612.3456", "E", "010124", "120000.00", "100.0", "10.0"], ","),
        ExampleReader)
      == Parsed(Fix(12.57613, 76.20576, 100.0, 18.52, "2024-01-01T12:00:00Z"))
  {
    ExampleParse(["1234.5678", "N", "07612.3456", "E", "010124", "120000.00", "100.0", "10.0"]);
  }
}

=== FILE: gps_session.dfy ===
/**
 The GPS session of the modem (`get_gps_position` in car.py): ask whether the
 GPS engine runs, start it when it does not, then poll for a position up to
 ten times. The transport's replies are a scripted sequence, consumed one per
 command in the order the commands are issued; sleeps are not modelled.
 */
module GpsSession {
  import opened Wrappers
  import opened PyStr
  import opened AtTransport
  import opened FixParser

  /** What one call of `get_gps_position` ends in, seen from its caller.
      `Located(fix)`: a parsed position; `NoFix`: the source returns `None`;
      `SerialFault`: a serial exception escaped (the inner loop catches it);
      `Uncaught`: another exception escaped (decode error, `ValueError` of
      `float()`, `IndexError`), which only the outer loop catches. */
  datatype GpsOutcome = Located(fix: Fix) | NoFix | SerialFault | Uncaught

  /** The outcome together with the commands issued, in order. */
  datatype PollReport = PollReport(outcome: GpsOutcome, sent: seq<Command>)

  const MaxPolls: nat := 10
  const NotReady: string := ",,,,,,"
  const RunningReport: string := "+CGPS: 1"

  /** An info reply the poll loop passes over: no `+CGPSINFO: ` in it (the
      transport reported a mismatch), or the all-empty fields of no satellite lock. */
  predicate Skippable(r: Reply) {
    r.Buffer? && (!Contains(r.text, CgpsInfo.Expect()) || Contains(r.text, NotReady))
  }

  /** How a usable info reply settles the call: the text after the first
      `: `, up to the next one, stripped of whitespace and parsed. */
  function Settle(answer: string, num: NumberReader): (r: GpsOutcome)
    ensures !r.SerialFault?
    ensures r.NoFix? <==> |Split(answer, ": ")| >= 2 && Count(Strip(Split(answer, ": ")[1]), ',') < 7
    ensures r.Located? ==> |Split(answer, ": ")| >= 2 && ParseGpsData(Strip(Split(answer, ": ")[1]), num) == Parsed(r.fix)
  {
    var pieces := Split(answer, ": ");
    if |pieces| < 2 then Uncaught
    else
      match ParseGpsData(Strip(pieces[1]), num)
      case TooFewFields => NoFix
      case BadNumber => Uncaught
      case Parsed(fix) => Located(fix)
  }

  /** The outcome a reply that is not skippable ends the poll loop with. */
  function Verdict(r: Reply, num: NumberReader): GpsOutcome {
    match r
    case SerialError => SerialFault
    case Garbled => Uncaught
    case Buffer(b) => Settle(b, num)
  }

  /** How many info queries the poll loop issues from script index `i` with
      `left` polls to go: one per reply, stopping after the first reply that
      is not skippable. */
  function Scan(script: seq<Reply>, i: nat, left: nat): (n: nat)
    ensures n <= left
    decreases left
  {
    if left == 0 then 0
    else if Skippable(ReplyAt(script, i)) then 1 + Scan(script, i + 1, left - 1)
    else 1
  }

  /** The poll loop passes over skippable replies only, stops at the first
      reply that is not skippable, and runs out all `left` polls otherwise. */
  lemma {:induction false} ScanStopsAtFirstUsable(script: seq<Reply>, i: nat, left: nat)
    requires left > 0
    ensures var n := Scan(script, i, left);
      && 1 <= n <= left
      && (forall j :: i <= j < i + n - 1 ==> Skippable(ReplyAt(script, j)))
      && (Skippable(ReplyAt(script, i + n - 1)) ==> n == left)
    decreases left
  {
    if Skippable(ReplyAt(script, i)) && left > 1 {
      ScanStopsAtFirstUsable(script, i + 1, left - 1);
    }
  }

  /** The poll loop from script index `i` with `left` polls to go: the
      verdict on the reply it stopped at, or no fix when that reply was
      skippable too (the loop ran out). */
  function Polls(script: seq<Reply>, i: nat, left: nat, num: NumberReader): (r: PollReport)
    ensures |r.sent| <= left
    ensures forall k :: 0 <= k < |r.sent| ==> r.sent[k] == CgpsInfo
  {
    var n := Scan(script, i, left);
    var sent := seq(n, _ => CgpsInfo);
    if n == 0 || Skippable(ReplyAt(script, i + n - 1)) then PollReport(NoFix, sent)
    else PollReport(Verdict(ReplyAt(script, i + n - 1), num), sent)
  }

  /** How the call opens: polling begins at script index `at` after the
      commands `sent`, or the call ends before polling with `report`. */
  datatype Opening = Poll(at: nat, sent: seq<Command>) | Done(report: PollReport)

  /** Query the GPS engine and start it unless it already runs. */
  function Open(script: seq<Reply>): (r: Opening)
    ensures r.Poll? ==> (r.at == 1 && r.sent == [CgpsQuery]) || (r.at == 2 && r.sent == [CgpsQuery, CgpsStart])
    ensures r.Done? ==> !r.report.outcome.Located?
    ensures r.Done? ==> r.report.sent == [CgpsQuery] || r.report.sent == [CgpsQuery, CgpsStart]
  {
    match ReplyAt(script, 0)
    case SerialError => Done(PollReport(SerialFault, [CgpsQuery]))
    case Garbled => Done(PollReport(Uncaught, [CgpsQuery]))
    case Buffer(q) =>
      var status := SendAt(q, CgpsQuery.Expect());
      if status.Some? && Contains(status.value, RunningReport) then Poll(1, [CgpsQuery])
      else
        match ReplyAt(script, 1)
        case SerialError => Done(PollReport(SerialFault, [CgpsQuery, CgpsStart]))
        case Garbled => Done(PollReport(Uncaught, [CgpsQuery, CgpsStart]))
        case Buffer(s) =>
          if SendAt(s, CgpsStart.Expect()).None? then Done(PollReport(NoFix, [CgpsQuery, CgpsStart]))
          else Poll(2, [CgpsQuery, CgpsStart])
  }

  /** One GPS call: the query comes first, at most ten info queries are
      issued, and at most twelve commands in all. */
  function GetGpsPosition(script: seq<Reply>, num: NumberReader): (r: PollReport)
    ensures |r.sent| >= 1 && r.sent[0] == CgpsQuery
    ensures InfoCount(r.sent) <= MaxPolls
    ensures |r.sent| <= MaxPolls + 2
  {
    assert [CgpsQuery, CgpsStart][1..] == [CgpsStart];
    match Open(script)
    case Done(report) => report
    case Poll(at, sent) =>
      var polls := Polls(script, at, MaxPolls, num);
      InfoCountAppend(sent, polls.sent);
      InfoCountAll(polls.sent);
      PollReport(polls.outcome, sent + polls.sent)
  }

  /** Number of info queries in a command list. */
  function InfoCount(sent: seq<Command>): nat {
    if |sent| == 0 then 0 else (if sent[0] == CgpsInfo then 1 else 0) + InfoCount(sent[1..])
  }

  lemma {:induction false} InfoCountAppend(a: seq<Command>, b: seq<Command>)
    ensures InfoCount(a + b) == InfoCount(a) + InfoCount(b)
    decreases |a|
  {
    if |a| > 0 {
      assert (a + b)[0] == a[0];
      assert (a + b)[1..] == a[1..] + b;
      InfoCountAppend(a[1..], b);
    } else {
      assert a + b == b;
    }
  }

  lemma {:induction false} InfoCountAll(s: seq<Command>)
    requires forall k :: 0 <= k < |s| ==> s[k] == CgpsInfo
    ensures InfoCount(s) == |s|
    decreases |s|
  {
    if |s| > 0 {
      InfoCountAll(s[1..]);
    }
  }

  /** The query reports the engine running when its reply holds `+CGPS: 1`:
      that reply necessarily matched `+CGPS: `, so `AT+CGPS=1` is never sent. */
  lemma AlreadyRunningSkipsStart(script: seq<Reply>, num: NumberReader)
    requires ReplyAt(script, 0).Buffer? && Contains(ReplyAt(script, 0).text, RunningReport)
    ensures Open(script) == Poll(1, [CgpsQuery])
    ensures CgpsStart !in GetGpsPosition(script, num).sent
  {
    var q := ReplyAt(script, 0).text;
    assert OccursAt(RunningReport, CgpsQuery.Expect(), 0);
    ContainsOccurs(RunningReport, CgpsQuery.Expect());
    ContainsTransitive(q, RunningReport, CgpsQuery.Expect());
    var polls := Polls(script, 1, MaxPolls, num);
    assert GetGpsPosition(script, num).sent == [CgpsQuery] + polls.sent;
  }

  /** When the engine is not reported running and the start command's reply
      lacks `OK`, the call returns `None` having sent the query and the start
      command only: no info query is issued. */
  lemma StartFailureEndsCall(script: seq<Reply>, num: NumberReader)
    requires ReplyAt(script, 0).Buffer? && !Contains(ReplyAt(script, 0).text, RunningReport)
    requires ReplyAt(script, 1).Buffer? && !Contains(ReplyAt(script, 1).text, CgpsStart.Expect())
    ensures GetGpsPosition(script, num) == PollReport(NoFix, [CgpsQuery, CgpsStart])
    ensures InfoCount(GetGpsPosition(script, num).sent) == 0
  {
    ContainsOccurs(ReplyAt(script, 1).text, CgpsStart.Expect());
    assert [CgpsQuery, CgpsStart][1..] == [CgpsStart];
  }

  /** When the engine is not reported running and the start command's reply
      holds `OK`, polling begins right after the query and the start command. */
  lemma NotRunningSendsStart(script: seq<Reply>, num: NumberReader)
    requires ReplyAt(script, 0).Buffer? && !Contains(ReplyAt(script, 0).text, RunningReport)
    requires ReplyAt(script, 1).Buffer? && Contains(ReplyAt(script, 1).text, CgpsStart.Expect())
    ensures Open(script) == Poll(2, [CgpsQuery, CgpsStart])
    ensures GetGpsPosition(script, num).sent[..2] == [CgpsQuery, CgpsStart]
  {
    ContainsOccurs(ReplyAt(script, 1).text, CgpsStart.Expect());
    var polls := Polls(script, 2, MaxPolls, num);
    assert GetGpsPosition(script, num).sent == [CgpsQuery, CgpsStart] + polls.sent;
  }

  /** `AT+CGPS=1` is sent exactly when the query's reply arrived, decoded,
      and does not report the engine running. */
  lemma StartSentIffNotRunning(script: seq<Reply>, num: NumberReader)
    ensures CgpsStart in GetGpsPosition(script, num).sent
      <==> ReplyAt(script, 0).Buffer? && !Contains(ReplyAt(script, 0).text, RunningReport)
  {
    var r := GetGpsPosition(script, num);
    if ReplyAt(script, 0).Buffer? && Contains(ReplyAt(script, 0).text, RunningReport) {
      AlreadyRunningSkipsStart(script, num);
    } else {
      match Open(script)
      case Done(report) =>
        assert ReplyAt(script, 0).Buffer? ==> report.sent == [CgpsQuery, CgpsStart];
        assert r.sent == report.sent;
      case Poll(at, sent) =>
        var polls := Polls(script, at, MaxPolls, num);
        assert r.sent == sent + polls.sent;
        assert CgpsStart !in polls.sent;
        assert ReplyAt(script, 0).Buffer? ==> sent == [CgpsQuery, CgpsStart];
        assert ReplyAt(script, 0).Buffer? ==> r.sent[1] == CgpsStart;
    }
  }

  /** Once polling starts at script index `at`, the call's outcome is the
      verdict on the first of the next ten replies that is not skippable,
      after exactly that many info queries; if all ten are skippable the
      outcome is "no fix" after ten info queries. */
  lemma ResultIsFirstUsable(script: seq<Reply>, num: NumberReader, at: nat, k: nat)
    requires Open(script).Poll? && Open(script).at == at
    requires k < MaxPolls && forall j :: at <= j < at + k ==> Skippable(ReplyAt(script, j))
    ensures var r := GetGpsPosition(script, num);
      && (!Skippable(ReplyAt(script, at + k)) ==>
            r.outcome == Verdict(ReplyAt(script, at + k), num) && InfoCount(r.sent) == k + 1)
      && (k == MaxPolls - 1 && Skippable(ReplyAt(script, at + k)) ==>
            r.outcome == NoFix && InfoCount(r.sent) == MaxPolls)
  {
    var sent := Open(script).sent;
    var polls := Polls(script, at, MaxPolls, num);
    ScanStopsAtFirstUsable(script, at, MaxPolls);
    assert sent == [CgpsQuery] || sent == [CgpsQuery, CgpsStart];
    assert [CgpsQuery, CgpsStart][1..] == [CgpsStart];
    InfoCountAppend(sent, polls.sent);
    InfoCountAll(polls.sent);
  }

  /** A usable info reply always carries text after `: `, so the source's
      `split(': ')[1]` never fails; the outcome is decided by the parser alone. */
  lemma UsableReplyHasPayload(b: string, num: NumberReader)
    requires !Skippable(Buffer(b))
    ensures |Split(b, ": ")| >= 2
    ensures Settle(b, num) == match ParseGpsData(Strip(Split(b, ": ")[1]), num)
      case TooFewFields => NoFix
      case BadNumber => Uncaught
      case Parsed(fix) => Located(fix)
  {
    assert OccursAt(CgpsInfo.Expect(), ": ", 9);
    ContainsOccurs(CgpsInfo.Expect(), ": ");
    ContainsTransitive(b, CgpsInfo.Expect(), ": ");
  }
}

=== FILE: pystr.dfy ===
/**
 Python `str` operations used by the telemetry agent, over `seq<char>`:
 substring test (`in`), first occurrence (`find`), `split` on a separator,
 `join`, slicing with Python's clamping of out-of-range bounds, and `strip()`.
 */
module PyStr {
  import opened Wrappers

  /** `t` occurs in `s` starting at index `i`. */
  predicate OccursAt(s: string, t: string, i: int) {
    0 <= i && i + |t| <= |s| && s[i..i + |t|] == t
  }

  /** Search for the first occurrence of `t` at or after index `from`. */
  function FindFrom(s: string, t: string, from: nat): (r: Option<nat>)
    requires from <= |s| + 1
    ensures r.Some? ==> from <= r.value && OccursAt(s, t, r.value)
    ensures forall j :: from <= j && (r.None? || j < r.value) ==> !OccursAt(s, t, j)
    decreases |s| + 1 - from
  {
    if from + |t| > |s| then None
    else if s[from..from + |t|] == t then Some(from)
    else FindFrom(s, t, from + 1)
  }

  /** Python's `s.find(t)`: the least index where `t` occurs, or `None` (Python's -1). */
  function Find(s: string, t: string): (r: Option<nat>)
    ensures r.Some? ==> OccursAt(s, t, r.value)
    ensures forall j :: 0 <= j && (r.None? || j < r.value) ==> !OccursAt(s, t, j)
  {
    FindFrom(s, t, 0)
  }

  /** Python's `t in s`. */
  predicate Contains(s: string, t: string) {
    Find(s, t).Some?
  }

  /** `t in s` holds exactly when `t` occurs somewhere in `s`. */
  lemma ContainsOccurs(s: string, t: string)
    ensures Contains(s, t) <==> exists i :: OccursAt(s, t, i)
  {
  }

  /** Every string contains the empty string; the empty string contains only it. */
  lemma EmptyContainment(s: string, t: string)
    ensures Contains(s, [])
    ensures Contains([], t) <==> t == []
  {
    ContainsOccurs(s, []);
    ContainsOccurs([], t);
    assert OccursAt(s, [], 0);
    if t == [] {
      assert OccursAt([], t, 0);
    }
  }

  /** Substring containment is transitive. */
  lemma {:induction false} ContainsTransitive(s: string, t: string, u: string)
    requires Contains(s, t) && Contains(t, u)
    ensures Contains(s, u)
  {
    ContainsOccurs(s, t);
    ContainsOccurs(t, u);
    ContainsOccurs(s, u);
    var i :| OccursAt(s, t, i);
    var j :| OccursAt(t, u, j);
    forall k | 0 <= k < |u|
      ensures s[i + j + k] == u[k]
    {
      assert s[i..i + |t|][j + k] == t[j + k];
      assert t[j..j + |u|][k] == u[k];
    }
    assert s[i + j..i + j + |u|] == u;
    assert OccursAt(s, u, i + j);
  }

  /** Python's `s.split(sep)` for a non-empty separator. */
  function Split(s: string, sep: string): (r: seq<string>)
    requires |sep| > 0
    ensures |r| >= 1
    ensures |r| >= 2 <==> Contains(s, sep)
    decreases |s|
  {
    match Find(s, sep)
    case None => [s]
    case Some(i) => [s[..i]] + Split(s[i + |sep|..], sep)
  }

  /** Python's `sep.join(parts)`. */
  function Join(parts: seq<string>, sep: string): string
  {
    if |parts| == 0 then []
    else if |parts| == 1 then parts[0]
    else parts[0] + sep + Join(parts[1..], sep)
  }

  /** One step of `Split`: the piece before the first separator, then the rest. */
  lemma SplitStep(s: string, sep: string, i: nat)
    requires |sep| > 0 && Find(s, sep) == Some(i)
    ensures Split(s, sep) == [s[..i]] + Split(s[i + |sep|..], sep)
    ensures s == s[..i] + sep + s[i + |sep|..]
  {
    assert s[i..i + |sep|] == sep;
    assert s == s[..i] + s[i..i + |sep|] + s[i + |sep|..];
  }

  /** One step of `Join` over a non-empty tail. */
  lemma JoinCons(p: string, rest: seq<string>, sep: string)
    requires |rest| >= 1
    ensures Join([p] + rest, sep) == p + sep + Join(rest, sep)
  {
    assert ([p] + rest)[1..] == rest;
  }

  /** Joining the pieces of a split with the same separator gives back the string. */
  lemma {:induction false} JoinSplit(s: string, sep: string)
    requires |sep| > 0
    ensures Join(Split(s, sep), sep) == s
    decreases |s|
  {
    var f := Find(s, sep);
    if f.Some? {
      var i := f.value;
      var rest := s[i + |sep|..];
      SplitStep(s, sep, i);
      JoinSplit(rest, sep);
      JoinCons(s[..i], Split(rest, sep), sep);
    }
  }

  /** Number of occurrences of the character `c` in `s`. */
  function Count(s: string, c: char): nat
  {
    if |s| == 0 then 0 else (if s[0] == c then 1 else 0) + Count(s[1..], c)
  }

  /** No part holds the one-character separator `c`. */
  predicate Clean(parts: seq<string>, c: char) {
    forall k :: 0 <= k < |parts| ==> c !in parts[k]
  }

  /** The first occurrence of `c` in `p + [c] + rest` is right after `p` when `p` has none. */
  lemma FindAfterCleanPrefix(p: string, c: char, rest: string)
    requires c !in p
    ensures Find(p + [c] + rest, [c]) == Some(|p|)
  {
    var s := p + [c] + rest;
    assert OccursAt(s, [c], |p|);
    forall j | 0 <= j < |p|
      ensures !OccursAt(s, [c], j)
    {
      assert s[j..j + 1][0] == s[j] == p[j];
    }
  }

  /** A string without the character `c` is left whole by splitting on it. */
  lemma SplitClean(p: string, c: char)
    requires c !in p
    ensures Split(p, [c]) == [p]
  {
    assert forall j :: OccursAt(p, [c], j) ==> p[j] == p[j..j + 1][0];
  }

  /** Splitting on a one-character separator undoes joining comma-free parts. */
  lemma {:induction false} SplitJoin(parts: seq<string>, c: char)
    requires |parts| >= 1 && Clean(parts, c)
    ensures Split(Join(parts, [c]), [c]) == parts
    decreases |parts|
  {
    if |parts| == 1 {
      SplitClean(parts[0], c);
    } else {
      var rest := Join(parts[1..], [c]);
      assert Join(parts, [c]) == parts[0] + [c] + rest;
      FindAfterCleanPrefix(parts[0], c, rest);
      var s := parts[0] + [c] + rest;
      assert s[..|parts[0]|] == parts[0];
      assert s[|parts[0]| + 1..] == rest;
      SplitJoin(parts[1..], c);
      assert parts == [parts[0]] + parts[1..];
    }
  }

  /** Splitting on one character yields one more piece than there are occurrences. */
  lemma {:induction false} SplitCount(s: string, c: char)
    ensures |Split(s, [c])| == Count(s, c) + 1
    decreases |s|
  {
    match Find(s, [c])
    case None =>
      NoOccurrenceCountsZero(s, c);
    case Some(i) =>
      SplitCount(s[i + 1..], c);
      CountSplitsAt(s, c, i);
  }

  /** If `c` never occurs as a one-character substring, it is counted zero times. */
  lemma {:induction false} NoOccurrenceCountsZero(s: string, c: char)
    requires Find(s, [c]).None?
    ensures Count(s, c) == 0
    decreases |s|
  {
    if |s| > 0 {
      assert !OccursAt(s, [c], 0);
      assert s[0..1] == [s[0]];
      forall j | 0 <= j
        ensures !OccursAt(s[1..], [c], j)
      {
        assert !OccursAt(s, [c], j + 1);
        if j + 1 <= |s[1..]| {
          assert s[1..][j..j + 1] == s[j + 1..j + 2];
        }
      }
      NoOccurrenceCountsZero(s[1..], c);
    }
  }

  /** Count over a string whose first occurrence of `c` is at `i`. */
  lemma {:induction false} CountSplitsAt(s: string, c: char, i: nat)
    requires Find(s, [c]) == Some(i)
    ensures Count(s, c) == 1 + Count(s[i + 1..], c)
    decreases i
  {
    assert s[i..i + 1] == [s[i]];
    if i == 0 {
    } else {
      assert !OccursAt(s, [c], 0);
      assert s[0..1] == [s[0]];
      var t := s[1..];
      assert Find(t, [c]) == Some(i - 1) by {
        assert OccursAt(t, [c], i - 1) by {
          assert t[i - 1..i] == s[i..i + 1];
        }
        forall j | 0 <= j < i - 1
          ensures !OccursAt(t, [c], j)
        {
          assert !OccursAt(s, [c], j + 1);
          assert t[j..j + 1] == s[j + 1..j + 2];
        }
      }
      CountSplitsAt(t, c, i - 1);
      assert t[i..] == s[i + 1..];
    }
  }

  function Min(a: int, b: int): int { if a <= b then a else b }

  /** Python's `s[lo:hi]` for non-negative bounds: both bounds are clamped to
      the length, and an empty string results when they cross. */
  function Slice(s: string, lo: nat, hi: nat): (r: string)
    ensures |r| == if Min(hi, |s|) <= Min(lo, |s|) then 0 else Min(hi, |s|) - lo
    ensures forall k :: 0 <= k < |r| ==> r[k] == s[lo + k]
  {
    var a := Min(lo, |s|);
    var b := Min(hi, |s|);
    if b <= a then [] else s[a..b]
  }

  /** Python's `s[:n]`. */
  function Take(s: string, n: nat): string { Slice(s, 0, n) }

  /** Python's `s[n:]`. */
  function Drop(s: string, n: nat): string { Slice(s, n, |s|) }

  /** Python's identity `s[:n] + s[n:] == s`, for every `n`, even past the end. */
  lemma TakeDrop(s: string, n: nat)
    ensures Take(s, n) + Drop(s, n) == s
    ensures |Take(s, n)| == Min(n, |s|)
  {
    if n >= |s| {
      assert Take(s, n) == s;
    } else {
      assert Take(s, n) == s[..n];
      assert Drop(s, n) == s[n..];
    }
  }

  /** Characters Python's `str.isspace()` accepts, i.e. those `strip()` removes. */
  predicate IsSpace(c: char) {
    || c == ' ' || ('\t' <= c <= '\r') || ('\U{1c}' <= c <= '\U{1f}')
    || c == '\U{85}' || c == '\U{a0}' || c == '\U{1680}' || ('\U{2000}' <= c <= '\U{200a}')
    || c == '\U{2028}' || c == '\U{2029}' || c == '\U{202f}' || c == '\U{205f}' || c == '\U{3000}'
  }

  predicate AllSpace(s: string) {
    forall k :: 0 <= k < |s| ==> IsSpace(s[k])
  }

  /** `s` neither begins nor ends with whitespace. */
  predicate Trimmed(s: string) {
    |s| == 0 || (!IsSpace(s[0]) && !IsSpace(s[|s| - 1]))
  }

  function StripStart(s: string): (r: string)
    ensures |r| <= |s| && r == s[|s| - |r|..]
    ensures |r| == 0 || !IsSpace(r[0])
  {
    if |s| > 0 && IsSpace(s[0]) then StripStart(s[1..]) else s
  }

  function StripEnd(s: string): (r: string)
    ensures |r| <= |s| && r == s[..|r|]
    ensures |r| == 0 || !IsSpace(r[|r| - 1])
  {
    if |s| > 0 && IsSpace(s[|s| - 1]) then StripEnd(s[..|s| - 1]) else s
  }

  /** Python's `s.strip()`. */
  function Strip(s: string): (r: string)
    ensures Trimmed(r) && |r| <= |s|
  {
    var t := StripStart(s);
    var r := StripEnd(t);
    assert |r| > 0 ==> r[0] == t[0];
    r
  }

  lemma {:induction false} StripStartRemovesSpace(s: string)
    ensures AllSpace(s[..|s| - |StripStart(s)|])
    decreases |s|
  {
    if |s| > 0 && IsSpace(s[0]) {
      var r := StripStart(s[1..]);
      StripStartRemovesSpace(s[1..]);
      assert s[..|s| - |r|] == [s[0]] + s[1..][..|s[1..]| - |r|];
    }
  }

  lemma {:induction false} StripEndRemovesSpace(s: string)
    ensures AllSpace(s[|StripEnd(s)|..])
    decreases |s|
  {
    if |s| > 0 && IsSpace(s[|s| - 1]) {
      var r := StripEnd(s[..|s| - 1]);
      StripEndRemovesSpace(s[..|s| - 1]);
      SpaceTail(s, |r|);
    }
  }

  lemma SpaceTail(s: string, n: nat)
    requires 0 < |s| && n <= |s| - 1 && IsSpace(s[|s| - 1]) && AllSpace(s[..|s| - 1][n..])
    ensures AllSpace(s[n..])
  {
    assert forall k :: n <= k < |s| - 1 ==> s[k] == s[..|s| - 1][n..][k - n];
  }

  /** `strip()` removes whitespace only: `s` is whitespace, then the result,
      then whitespace. */
  lemma StripRemovesOnlySpace(s: string)
    ensures exists a, b :: 0 <= a <= b <= |s| && Strip(s) == s[a..b] && AllSpace(s[..a]) && AllSpace(s[b..])
  {
    var t := StripStart(s);
    var r := StripEnd(t);
    StripStartRemovesSpace(s);
    StripEndRemovesSpace(t);
    var a := |s| - |t|;
    var b := a + |r|;
    assert r == s[a..b];
    assert s[b..] == t[|r|..];
  }

  /** Stripping leaves a trimmed string alone, so `strip()` is idempotent. */
  lemma StripTrimmed(s: string)
    ensures Trimmed(s) ==> Strip(s) == s
    ensures Strip(Strip(s)) == Strip(s)
  {
    forall t: string | Trimmed(t)
      ensures Strip(t) == t
    {
      assert StripStart(t) == t;
      assert StripEnd(t) == t;
    }
  }
}

=== FILE: supervisor.dfy ===
/**
 The supervisor (`main` in car.py) as a step function over an explicit state
 record. Each outer iteration is fed the outcomes of its environment: the
 privileged commands, the reachability probes, the notification send, the
 serial open, and per inner cycle the GPS call's outcome and whether the upload
 answered 200. Sleeps are not modelled; an infinite loop is cut where its
 script ends.
 */
module Supervisor {
  import opened Wrappers
  import opened AtTransport
  import opened FixParser
  import opened GpsSession
  import PyStr

  const ProbeBudget: nat := 12
  const FailureThreshold: nat := 20

  /** The two lines of the status display. */
  datatype Pair = Pair(network: bool, gps: bool)

  /** The local `ser`: not yet assigned, `None`, an open port, a closed port. */
  datatype Port = Unbound | NoPort | PortOpen | PortClosed

  /** The supervisor's state: the last status pair shown (`None` before the
      first update, as in the source), the one-shot flag and the number of
      notifications delivered, the current statuses, the failure counter,
      the port, and every display update in order. */
  datatype Sup = Sup(
    prevNet: Option<bool>, prevGps: Option<bool>,
    notified: bool, notices: nat,
    network: bool, gps: bool, failures: nat,
    port: Port, screen: seq<Pair>)

  const Init: Sup := Sup(None, None, false, 0, false, false, 0, Unbound, [])

  /** A display argument that may be `None` renders as "off". */
  function Truthy(b: Option<bool>): bool { b == Some(true) }

  /** One reachability probe: it connects, it fails to connect (the source
      returns `False`), or it raises another request exception. */
  datatype Probe = Reachable | Unreachable | ProbeFault

  /** A probe script read past its end keeps failing to connect. */
  function ProbeAt(probes: seq<Probe>, i: nat): Probe {
    if i < |probes| then probes[i] else Unreachable
  }

  datatype WaitResult = Online(attempts: nat) | GaveUp | ProbeRaised(attempts: nat)

  /** The internet wait, `count` failed probes in: probe, and on failure
      count it and give up once twelve have failed. */
  function WaitForInternet(probes: seq<Probe>, count: nat): (r: WaitResult)
    requires count < ProbeBudget
    ensures r.GaveUp? <==> forall j :: count <= j < ProbeBudget ==> ProbeAt(probes, j) == Unreachable
    ensures r.Online? ==>
      && count < r.attempts <= ProbeBudget
      && ProbeAt(probes, r.attempts - 1) == Reachable
      && forall j :: count <= j < r.attempts - 1 ==> ProbeAt(probes, j) == Unreachable
    ensures r.ProbeRaised? ==>
      && count < r.attempts <= ProbeBudget
      && ProbeAt(probes, r.attempts - 1) == ProbeFault
      && forall j :: count <= j < r.attempts - 1 ==> ProbeAt(probes, j) == Unreachable
    decreases ProbeBudget - count
  {
    match ProbeAt(probes, count)
    case Reachable => Online(count + 1)
    case ProbeFault => ProbeRaised(count + 1)
    case Unreachable =>
      if count + 1 >= ProbeBudget then GaveUp else WaitForInternet(probes, count + 1)
  }

  /** The inputs of one inner cycle: what its GPS call ended in and whether
      the upload answered 200. */
  datatype CycleInput = CycleInput(outcome: GpsOutcome, uploadOk: bool)

  /** The cycle whose GPS call reads the modem replies `replies`. */
  function CycleOn(replies: seq<Reply>, num: NumberReader, uploadOk: bool): CycleInput {
    CycleInput(GetGpsPosition(replies, num).outcome, uploadOk)
  }

  /** The inputs of one outer iteration. */
  datatype Env = Env(
    stopOk: bool, lteOk: bool, probes: seq<Probe>, notifyRaises: bool,
    serialOk: bool, cycles: seq<CycleInput>)

  /** The edge-triggered display update: show the current pair and remember
      it, but only when it differs from the remembered one. */
  function Edge(s: Sup): Sup {
    if Some(s.network) != s.prevNet || Some(s.gps) != s.prevGps then
      s.(screen := s.screen + [Pair(s.network, s.gps)], prevNet := Some(s.network), prevGps := Some(s.gps))
    else s
  }

  datatype CycleEnd = Continue(s: Sup) | Escaped(s: Sup)

  /** One inner cycle given the GPS call's outcome and the upload's success. */
  function Cycle(s: Sup, outcome: GpsOutcome, uploadOk: bool): (r: CycleEnd)
    ensures outcome.SerialFault? ==> r == Continue(s)
    ensures outcome.Uncaught? ==> r == Escaped(s)
    ensures outcome.Located? || outcome.NoFix? ==>
      && r.Continue?
      && r.s.gps == outcome.Located? && r.s.network == s.network
      && r.s.notified == s.notified && r.s.notices == s.notices && r.s.port == s.port
      && r.s.prevNet == Some(r.s.network) && r.s.prevGps == Some(r.s.gps)
      && (r.s.screen == s.screen || r.s.screen == s.screen + [Pair(r.s.network, r.s.gps)])
      && (r.s.screen != s.screen <==> Some(s.network) != s.prevNet || Some(r.s.gps) != s.prevGps)
    ensures outcome.Located? && uploadOk ==> r.s.failures == 0
    ensures (outcome.NoFix? || (outcome.Located? && !uploadOk)) && s.failures < FailureThreshold ==>
      r.s.failures == (s.failures + 1) % FailureThreshold
    ensures s.failures < FailureThreshold ==> r.s.failures < FailureThreshold
  {
    match outcome
    case SerialFault => Continue(s)
    case Uncaught => Escaped(s)
    case Located(_) => Continue(Observe(s, true, if uploadOk then 0 else s.failures + 1))
    case NoFix => Continue(Observe(s, false, s.failures + 1))
  }

  /** The end of a cycle that reached the display: record the GPS status and
      the counter, update the display on an edge, apply the threshold. */
  function Observe(s: Sup, gps: bool, failures: nat): (r: Sup)
    ensures r.gps == gps && r.network == s.network
    ensures r.notified == s.notified && r.notices == s.notices && r.port == s.port
    ensures r.prevNet == Some(s.network) && r.prevGps == Some(gps)
    ensures r.screen == s.screen || r.screen == s.screen + [Pair(s.network, gps)]
    ensures r.screen != s.screen <==> Some(s.network) != s.prevNet || Some(gps) != s.prevGps
    ensures failures <= FailureThreshold ==> r.failures == failures % FailureThreshold
  {
    Threshold(Edge(s.(gps := gps, failures := failures)))
  }

  /** The counter is reset once it reaches the threshold; nothing escalates. */
  function Threshold(s: Sup): Sup {
    if s.failures >= FailureThreshold then s.(failures := 0) else s
  }

  /** What an outer iteration's attempt ends in before the handler runs. */
  datatype AttemptEnd = Exited(s: Sup) | Raised(s: Sup) | Looping(s: Sup)

  /** The inner loop over a script of cycles. */
  function InnerLoop(s: Sup, cycles: seq<CycleInput>): (r: AttemptEnd)
    ensures !r.Exited?
    ensures r.Raised? <==> exists k :: 0 <= k < |cycles| && cycles[k].outcome.Uncaught?
    ensures r.s.network == s.network && r.s.port == s.port
    ensures r.s.notified == s.notified && r.s.notices == s.notices
    decreases |cycles|
  {
    if |cycles| == 0 then Looping(s)
    else
      match Cycle(s, cycles[0].outcome, cycles[0].uploadOk)
      case Escaped(s') => Raised(s')
      case Continue(s') => InnerLoop(s', cycles[1..])
  }

  /** The body of the outer `try`: bring the link up, notify once, update
      the display on a network edge, open the port, run the inner loop. */
  function Attempt(s: Sup, env: Env): (r: AttemptEnd)
    ensures r.Exited? <==> !env.stopOk || !env.lteOk
    ensures r.Exited? ==> r.s == s
    ensures env.stopOk && env.lteOk && !WaitForInternet(env.probes, 0).Online? ==> r == Raised(s.(network := false))
    ensures r.Looping? ==>
      && WaitForInternet(env.probes, 0).Online? && env.serialOk
      && r.s.network && r.s.notified && r.s.port == PortOpen
    ensures r.s.port != s.port ==>
      WaitForInternet(env.probes, 0).Online? && (s.notified || !env.notifyRaises)
    ensures env.stopOk && env.lteOk && WaitForInternet(env.probes, 0).Online? ==>
      && !r.Exited? && r.s.network
      && (!s.notified && env.notifyRaises ==> r == Raised(s.(network := true)))
      && (s.notified || !env.notifyRaises ==>
        && r.s.notified
        && r.s.notices == (if s.notified then s.notices else s.notices + 1)
        && (env.serialOk ==> r.s.port == PortOpen)
        && (!env.serialOk ==> r.Raised? && r.s.port == NoPort))
  {
    if !env.stopOk || !env.lteOk then Exited(s)
    else
      var offline := s.(network := false);
      match WaitForInternet(env.probes, 0)
      case GaveUp => Raised(offline)
      case ProbeRaised(_) => Raised(offline)
      case Online(_) =>
        var online := offline.(network := true);
        if !online.notified && env.notifyRaises then Raised(online)
        else
          var unopened := LinkUp(online).(gps := false, port := NoPort);
          if !env.serialOk then Raised(unopened)
          else InnerLoop(unopened.(port := PortOpen, failures := 0), env.cycles)
  }

  /** Once the link is up: notify unless already done, and show the network
      status if it changed; the GPS line keeps the remembered value. */
  function LinkUp(s: Sup): (r: Sup)
    ensures r.notified && r.notices == (if s.notified then s.notices else s.notices + 1)
    ensures r.screen != s.screen <==> Some(s.network) != s.prevNet
    ensures r.screen == s.screen || r.screen == s.screen + [Pair(s.network, Truthy(s.prevGps))]
    ensures r.prevNet == Some(s.network) && r.prevGps == s.prevGps
    ensures r.network == s.network && r.gps == s.gps && r.failures == s.failures && r.port == s.port
  {
    var told := if s.notified then s else s.(notified := true, notices := s.notices + 1);
    if Some(told.network) != told.prevNet then
      told.(screen := told.screen + [Pair(told.network, Truthy(told.prevGps))], prevNet := Some(told.network))
    else told
  }

  /** How an outer iteration ends. `Crashed` (an exception inside the
      handler ends the process) is reached only by the handler as written. */
  datatype Outer = Stopped(s: Sup) | Running(s: Sup) | Restarting(s: Sup) | Crashed

  function Close(p: Port): Port { if p == PortOpen then PortClosed else p }

  /** The outer handler as written: `if ser:` on a never-assigned `ser`
      raises, and the all-off display update is not remembered. */
  function RecoverAsWritten(s: Sup): (r: Option<Sup>)
    ensures r.None? <==> s.port == Unbound
    ensures r.Some? ==> r.value.port != PortOpen && r.value.screen == s.screen + [Pair(false, false)]
    ensures r.Some? ==> r.value.prevNet == s.prevNet && r.value.prevGps == s.prevGps
    ensures r.Some? ==> r.value.notified == s.notified && r.value.notices == s.notices
  {
    if s.port == Unbound then None
    else Some(s.(port := Close(s.port), screen := s.screen + [Pair(false, false)]))
  }

  /** The outer handler as intended: close a port if one was opened, show
      both statuses off and remember that this is what is shown. */
  function Recover(s: Sup): (r: Sup)
    ensures r.port != PortOpen
    ensures r.screen == s.screen + [Pair(false, false)]
    ensures r.prevNet == Some(false) && r.prevGps == Some(false)
    ensures r.notified == s.notified && r.notices == s.notices
  {
    s.(port := Close(s.port), screen := s.screen + [Pair(false, false)],
       prevNet := Some(false), prevGps := Some(false))
  }

  /** One outer iteration with the handler as written: it crashes exactly
      when the attempt raised before `ser` was ever assigned. */
  function IterateAsWritten(s: Sup, env: Env): (r: Outer)
    ensures r.Crashed? <==> Attempt(s, env).Raised? && Attempt(s, env).s.port == Unbound
    ensures !r.Crashed? ==>
      r.s.notified == Attempt(s, env).s.notified && r.s.notices == Attempt(s, env).s.notices
  {
    match Attempt(s, env)
    case Exited(s') => Stopped(s')
    case Looping(s') => Running(s')
    case Raised(s') =>
      match RecoverAsWritten(s')
      case None => Crashed
      case Some(s'') => Restarting(s'')
  }

  /** One outer iteration with the intended handler. */
  function Iterate(s: Sup, env: Env): (r: Outer)
    ensures !r.Crashed?
  {
    match Attempt(s, env)
    case Exited(s') => Stopped(s')
    case Looping(s') => Running(s')
    case Raised(s') => Restarting(Recover(s'))
  }

  /** Outer iterations in sequence, each restart consuming the next script. */
  function Run(s: Sup, envs: seq<Env>): (r: Outer)
    ensures !r.Crashed?
    decreases |envs|
  {
    if |envs| == 0 then Restarting(s)
    else
      match Iterate(s, envs[0])
      case Restarting(s') => Run(s', envs[1..])
      case other => other
  }

  /** Outer iterations in sequence with the handler as written; a crash ends
      the process, and it can happen only while `ser` was never assigned. */
  function RunAsWritten(s: Sup, envs: seq<Env>): (r: Outer)
    ensures r.Crashed? ==> s.port == Unbound
    decreases |envs|
  {
    if |envs| == 0 then Restarting(s)
    else
      match IterateAsWritten(s, envs[0])
      case Restarting(s') => RunAsWritten(s', envs[1..])
      case other => other
  }

  // Properties of the internet wait

  /** Eleven failed probes and a success on the twelfth still bring the link
      up: the budget includes the twelfth probe. */
  lemma SuccessOnTwelfthProbe(probes: seq<Probe>)
    requires |probes| == ProbeBudget && probes[ProbeBudget - 1] == Reachable
    requires forall j :: 0 <= j < ProbeBudget - 1 ==> probes[j] == Unreachable
    ensures WaitForInternet(probes, 0) == Online(ProbeBudget)
  {
    assert ProbeAt(probes, ProbeBudget - 1) == Reachable;
  }

  // Properties of the inner loop

  /** The failure counter never reaches the threshold, the display always
      shows the remembered pair (or nothing yet, when nothing is remembered),
      and a notification was delivered exactly when the one-shot flag is set. */
  predicate Healthy(s: Sup) {
    && s.failures < FailureThreshold
    && DisplayCoherent(s)
    && NoticesMatchFlag(s)
  }

  /** A notification was delivered exactly when the one-shot flag is set. */
  predicate NoticesMatchFlag(s: Sup) {
    s.notices == (if s.notified then 1 else 0)
  }

  predicate DisplayCoherent(s: Sup) {
    || (s.screen == [] && s.prevNet == None && s.prevGps == None)
    || (s.screen != [] && s.screen[|s.screen| - 1] == Pair(Truthy(s.prevNet), Truthy(s.prevGps)))
  }

  /** After every cycle that obtained a fix or reported none, the display
      shows the actual network and GPS statuses. */
  lemma DisplayTracksStatus(s: Sup, outcome: GpsOutcome, uploadOk: bool)
    requires Healthy(s) && (outcome.Located? || outcome.NoFix?)
    ensures var t := Cycle(s, outcome, uploadOk).s;
      Healthy(t) && t.screen != [] && t.screen[|t.screen| - 1] == Pair(t.network, t.gps)
  {
  }

  lemma {:induction false} InnerLoopHealthy(s: Sup, cycles: seq<CycleInput>)
    requires Healthy(s)
    ensures Healthy(InnerLoop(s, cycles).s)
    ensures InnerLoop(s, cycles).s.notified == s.notified
    decreases |cycles|
  {
    if |cycles| > 0 {
      var outcome := cycles[0].outcome;
      var c := Cycle(s, outcome, cycles[0].uploadOk);
      if outcome.Located? || outcome.NoFix? {
        DisplayTracksStatus(s, outcome, cycles[0].uploadOk);
      }
      if c.Continue? {
        InnerLoopHealthy(c.s, cycles[1..]);
      }
    }
  }

  /** Cycles without a fix only count failures: twenty of them bring the
      counter back to zero, and the inner loop never hands over to the outer
      loop for them. */
  lemma {:induction false} NoFixNeverEscalates(s: Sup, cycles: seq<CycleInput>)
    requires s.failures < FailureThreshold
    requires forall k :: 0 <= k < |cycles| ==> cycles[k].outcome == NoFix
    ensures InnerLoop(s, cycles).Looping?
    ensures InnerLoop(s, cycles).s.failures == (s.failures + |cycles|) % FailureThreshold
    ensures |cycles| > 0 ==> !InnerLoop(s, cycles).s.gps
    decreases |cycles|
  {
    if |cycles| > 0 {
      assert cycles[0].outcome == NoFix;
      var c := Cycle(s, NoFix, cycles[0].uploadOk);
      assert InnerLoop(s, cycles) == InnerLoop(c.s, cycles[1..]);
      assert forall k :: 0 <= k < |cycles[1..]| ==> cycles[1..][k] == cycles[k + 1];
      NoFixNeverEscalates(c.s, cycles[1..]);
      CounterWraps(s.failures, |cycles| - 1);
    }
  }

  lemma CounterWraps(a: nat, n: nat)
    ensures ((a + 1) % FailureThreshold + n) % FailureThreshold == (a + n + 1) % FailureThreshold
  {
  }

  /** Twenty consecutive cycles without a fix from a fresh counter. */
  lemma TwentyNoFixCycles(s: Sup, cycles: seq<CycleInput>)
    requires s.failures == 0 && |cycles| == FailureThreshold
    requires forall k :: 0 <= k < |cycles| ==> cycles[k].outcome == NoFix
    ensures InnerLoop(s, cycles).Looping? && InnerLoop(s, cycles).s.failures == 0
  {
    NoFixNeverEscalates(s, cycles);
  }

  /** A modem that never answers: the query and the start command both time
      out on an empty buffer, so the GPS call reports no fix. */
  lemma SilentModemGivesNoFix(num: NumberReader, uploadOk: bool)
    ensures CycleOn([], num, uploadOk).outcome == NoFix
    ensures GetGpsPosition([], num).sent == [CgpsQuery, CgpsStart]
  {
    PyStr.EmptyContainment([], RunningReport);
    PyStr.EmptyContainment([], CgpsStart.Expect());
    StartFailureEndsCall([], num);
  }

  /** Any number of cycles against a silent modem only advance the failure
      counter, modulo the threshold, and never hand over to the outer loop. */
  lemma SilentModemNeverEscalates(s: Sup, n: nat, num: NumberReader, uploadOk: bool)
    requires s.failures < FailureThreshold
    ensures var cycles := seq(n, _ => CycleOn([], num, uploadOk));
      && InnerLoop(s, cycles).Looping?
      && InnerLoop(s, cycles).s.failures == (s.failures + n) % FailureThreshold
  {
    SilentModemGivesNoFix(num, uploadOk);
    NoFixNeverEscalates(s, seq(n, _ => CycleOn([], num, uploadOk)));
  }

  // Properties of the outer loop

  lemma AttemptHealthy(s: Sup, env: Env)
    requires Healthy(s)
    ensures Healthy(Attempt(s, env).s)
    ensures s.notified ==> Attempt(s, env).s.notices == s.notices
  {
    if env.stopOk && env.lteOk && WaitForInternet(env.probes, 0).Online? {
      var online := s.(network := true);
      if online.notified || !env.notifyRaises {
        LinkUpHealthy(online);
        var unopened := LinkUp(online).(gps := false, port := NoPort);
        if env.serialOk {
          InnerLoopHealthy(unopened.(port := PortOpen, failures := 0), env.cycles);
        }
      }
    }
  }

  /** How an outer iteration ends, with either handler: the process stops
      exactly when a privileged command fails (`sys.exit`); it keeps running
      exactly when the link came up, the notification (if due) went out, the
      port opened and no cycle let an exception other than a serial one
      escape; otherwise the outer loop restarts, or, as written, may crash. */
  lemma OuterDecision(s: Sup, env: Env)
    ensures Iterate(s, env).Stopped? <==> !env.stopOk || !env.lteOk
    ensures IterateAsWritten(s, env).Stopped? <==> !env.stopOk || !env.lteOk
    ensures Iterate(s, env).Running? <==> LiveAttempt(s, env)
    ensures IterateAsWritten(s, env).Running? <==> LiveAttempt(s, env)
    ensures Iterate(s, env).Restarting? <==> env.stopOk && env.lteOk && !LiveAttempt(s, env)
    ensures IterateAsWritten(s, env).Restarting? || IterateAsWritten(s, env).Crashed?
      <==> env.stopOk && env.lteOk && !LiveAttempt(s, env)
  {
  }

  /** The conditions under which an attempt reaches the inner loop and the
      inner loop never hands over. */
  predicate LiveAttempt(s: Sup, env: Env) {
    && env.stopOk && env.lteOk && WaitForInternet(env.probes, 0).Online?
    && (s.notified || !env.notifyRaises) && env.serialOk
    && forall k :: 0 <= k < |env.cycles| ==> !env.cycles[k].outcome.Uncaught?
  }

  /** A cycle whose GPS call raises an exception other than a serial one
      (`ValueError` of `float()`, a decode error) restarts the outer loop:
      with the intended handler the port is closed; as written the port
      was assigned, so the handler does not crash either. */
  lemma UncaughtCycleRestarts(s: Sup, env: Env, k: nat)
    requires env.stopOk && env.lteOk && WaitForInternet(env.probes, 0).Online?
    requires (s.notified || !env.notifyRaises) && env.serialOk
    requires k < |env.cycles| && env.cycles[k].outcome.Uncaught?
    ensures Iterate(s, env).Restarting? && Iterate(s, env).s.port == PortClosed
    ensures IterateAsWritten(s, env).Restarting? && IterateAsWritten(s, env).s.port == PortClosed
  {
  }

  /** Bringing the link up keeps the state healthy, sets the one-shot flag,
      and delivers a notification only if none was delivered before. */
  lemma LinkUpHealthy(s: Sup)
    requires Healthy(s)
    ensures Healthy(LinkUp(s)) && LinkUp(s).notified
    ensures s.notified ==> LinkUp(s).notices == s.notices
  {
  }

  /** Over any number of outer iterations the process never crashes, the
      state stays healthy and at most one notification is ever delivered. */
  lemma {:induction false} RunHealthy(s: Sup, envs: seq<Env>)
    requires Healthy(s)
    ensures !Run(s, envs).Crashed?
    ensures Healthy(Run(s, envs).s) && Run(s, envs).s.notices <= 1
    ensures s.notified ==> Run(s, envs).s.notices == s.notices
    decreases |envs|
  {
    if |envs| > 0 {
      AttemptHealthy(s, envs[0]);
      match Iterate(s, envs[0])
      case Restarting(s') =>
        RunHealthy(s', envs[1..]);
      case _ =>
    }
  }

  /** An outer iteration delivers the startup notification at most once,
      whatever the handler does with the display. */
  lemma AttemptNotifiesOnce(s: Sup, env: Env)
    requires NoticesMatchFlag(s)
    ensures NoticesMatchFlag(Attempt(s, env).s)
    ensures s.notified ==> Attempt(s, env).s.notices == s.notices
  {
    if env.stopOk && env.lteOk && WaitForInternet(env.probes, 0).Online? {
      var online := s.(network := true);
      if online.notified || !env.notifyRaises {
        assert LinkUp(online).notices == (if s.notified then s.notices else s.notices + 1);
      }
    }
  }

  /** With the handler as written too, the process delivers at most one
      notification before it ends, crashed or not. */
  lemma {:induction false} RunAsWrittenNotifiesOnce(s: Sup, envs: seq<Env>)
    requires NoticesMatchFlag(s)
    ensures var r := RunAsWritten(s, envs);
      r.Crashed? || (NoticesMatchFlag(r.s) && r.s.notices <= 1)
    decreases |envs|
  {
    if |envs| > 0 {
      AttemptNotifiesOnce(s, envs[0]);
      match IterateAsWritten(s, envs[0])
      case Restarting(s') =>
        RunAsWrittenNotifiesOnce(s', envs[1..]);
      case _ =>
    }
  }

  /** From process start, with the handler as written. */
  lemma NotifiedAtMostOnceAsWritten(envs: seq<Env>)
    ensures RunAsWritten(Init, envs).Crashed? || RunAsWritten(Init, envs).s.notices <= 1
  {
    RunAsWrittenNotifiesOnce(Init, envs);
  }

  /** From process start, whatever the environment does. */
  lemma NotifiedAtMostOnce(envs: seq<Env>)
    ensures !Run(Init, envs).Crashed? && Run(Init, envs).s.notices <= 1
  {
    RunHealthy(Init, envs);
  }

  // The outer handler: as written and as intended

  /** As written: when the twelve probes of the very first iteration fail,
      the handler reads the never-assigned `ser` and the process dies instead
      of restarting. The intended handler restarts with everything shown off. */
  lemma FirstLinkFailureCrashesAsWritten()
    ensures IterateAsWritten(Init, Env(true, true, [], false, true, [])) == Crashed
    ensures Iterate(Init, Env(true, true, [], false, true, [])).Restarting?
  {
    assert WaitForInternet([], 0) == GaveUp;
  }

  /** As intended: a link failure from any state leads to a restart with the
      port closed and both statuses shown, and remembered, as off. */
  lemma LinkFailureRestarts(s: Sup, env: Env)
    requires env.stopOk && env.lteOk
    requires forall j :: 0 <= j < ProbeBudget ==> ProbeAt(env.probes, j) == Unreachable
    ensures Iterate(s, env) == Restarting(Recover(s.(network := false)))
    ensures Iterate(s, env).s.port != PortOpen
    ensures Iterate(s, env).s.screen == s.screen + [Pair(false, false)]
  {
  }

  /** As written: after a restart from a state that showed both statuses on,
      the handler's all-off update is not remembered, so when the link comes
      back and the next cycle obtains a fix no edge is seen and the display
      keeps showing both statuses off. */
  lemma StaleDisplayAsWritten(s: Sup, env: Env, fix: Fix, uploadOk: bool)
    requires s.prevNet == Some(true) && s.prevGps == Some(true) && s.notified && s.port == PortOpen
    requires env.stopOk && env.lteOk && ProbeAt(env.probes, 0) == Reachable && env.serialOk
    requires env.cycles == [CycleInput(Located(fix), uploadOk)]
    ensures RecoverAsWritten(s).Some?
    ensures var o := IterateAsWritten(RecoverAsWritten(s).value, env);
      && o.Running? && o.s.network && o.s.gps
      && o.s.screen == s.screen + [Pair(false, false)]
  {
    var s' := RecoverAsWritten(s).value;
    assert WaitForInternet(env.probes, 0) == Online(1);
    var online := s'.(network := true);
    assert LinkUp(online) == online;
    var unopened := online.(gps := false, port := PortOpen, failures := 0);
    var c := Cycle(unopened, Located(fix), uploadOk);
    assert c.Continue? && c.s.screen == unopened.screen;
    assert InnerLoop(unopened, env.cycles) == InnerLoop(c.s, []);
    assert Attempt(s', env) == Looping(c.s);
  }

  /** As intended: the handler keeps the display coherent, so the next edge
      after a restart is seen. */
  lemma RecoverKeepsDisplayCoherent(s: Sup)
    requires Healthy(s)
    ensures Healthy(Recover(s))
    ensures Recover(s).screen[|Recover(s).screen| - 1] == Pair(false, false)
  {
  }

  /** As intended, in the scenario where the handler as written leaves the
      display stale: after the restart the link comes back and the next cycle
      obtains a fix, and the display shows both statuses on. */
  lemma FreshDisplayAfterRestart(s: Sup, env: Env, fix: Fix, uploadOk: bool)
    requires Healthy(s) && s.notified
    requires env.stopOk && env.lteOk && ProbeAt(env.probes, 0) == Reachable && env.serialOk
    requires env.cycles == [CycleInput(Located(fix), uploadOk)]
    ensures var o := Iterate(Recover(s), env);
      && o.Running? && o.s.network && o.s.gps
      && o.s.screen != [] && o.s.screen[|o.s.screen| - 1] == Pair(true, true)
  {
    RecoverKeepsDisplayCoherent(s);
    var r := Recover(s);
    assert WaitForInternet(env.probes, 0) == Online(1);
    var online := r.(network := true);
    LinkUpHealthy(online);
    var unopened := LinkUp(online).(gps := false, port := PortOpen, failures := 0);
    DisplayTracksStatus(unopened, Located(fix), uploadOk);
    var c := Cycle(unopened, Located(fix), uploadOk);
    assert InnerLoop(unopened, env.cycles) == InnerLoop(c.s, []);
  }
}

=== FILE: uploader.dfy ===
/**
 The report sent to the tracking server (`send_data_to_traccar` in car.py).
 The HTTP request itself is the environment's: whether it answered 200 is an
 input of the supervisor. The clock reading is a parameter.
 */
module Uploader {
  import opened FixParser

  const DeviceId: string := "my_car_name"
  const DefaultBearing: real := 0.0
  const DefaultBattery: real := 100.0

  /** The query parameters of one position report. */
  datatype Report = Report(
    id: string, lat: real, lon: real, timestamp: int,
    altitude: real, speed: real, bearing: real, batt: real)

  /** A whole number of hundredths. */
  predicate Hundredths(x: real) {
    (x * 100.0).Floor as real == x * 100.0
  }

  /** Python's `round(x, 2)` on an exact value: the nearest hundredth, a tie
      going to the even one. */
  function Round2(x: real): (r: real)
    ensures Hundredths(r)
    ensures -0.005 <= r - x <= 0.005
    ensures Hundredths(x) ==> r == x
  {
    var k := (x * 100.0).Floor;
    var frac := x * 100.0 - k as real;
    var n := if frac > 0.5 || (frac == 0.5 && k % 2 != 0) then k + 1 else k;
    n as real / 100.0
  }

  /** A hundredth is nearer than any other: rounding picks a closest one. */
  lemma {:induction false} Round2Nearest(x: real, h: real)
    requires Hundredths(h)
    ensures Abs(Round2(x) - x) <= Abs(h - x)
  {
    var k := (x * 100.0).Floor;
    var m := (h * 100.0).Floor;
    assert h == m as real / 100.0;
    if m <= k {
      assert h <= k as real / 100.0;
    } else {
      assert h >= (k + 1) as real / 100.0;
    }
  }

  function Abs(x: real): real { if x < 0.0 then -x else x }

  /** The report for a fix, stamped with the send-time clock reading `now`
      (whole Unix seconds). The speed is rounded to hundredths; a parsed fix
      carries no bearing or battery level, so both take their defaults. */
  function BuildReport(fix: Fix, now: int): (r: Report)
    ensures r.id == DeviceId && r.timestamp == now
    ensures r.lat == fix.lat && r.lon == fix.lon && r.altitude == fix.alt
    ensures Hundredths(r.speed) && -0.005 <= r.speed - fix.speed <= 0.005
    ensures Hundredths(fix.speed) ==> r.speed == fix.speed
    ensures r.bearing == DefaultBearing && r.batt == DefaultBattery
  {
    Report(DeviceId, fix.lat, fix.lon, now, fix.alt, Round2(fix.speed), DefaultBearing, DefaultBattery)
  }

  /** The server is told the time of sending, never the fix's own GPS time:
      fixes that differ only in their timestamp give the same report. */
  lemma ReportIgnoresFixTime(fix: Fix, other: string, now: int)
    ensures BuildReport(fix, now) == BuildReport(fix.(timestamp := other), now)
  {
  }
}

=== FILE: wrappers.dfy ===
/** The optional-value type used for Python's `None` returns. */
module Wrappers {

  /** `None` stands for Python's `None`; `Some(v)` for a present value. */
  datatype Option<+T> = None | Some(value: T)
}
